=== FILE: README.md ===
# Kontur.Start dashboards — a Dafny model

Kontur.Start is a browser demo that connects students with recruiters. It has no
server and no persistence. A fixed set of fixture records (companies, students
with their test results, one recruiter, vacancies, applications and a test
catalogue) is shown through two role dashboards. A landing page lets the user pick
a role, and a "back to start" link returns to it.

This project models the logic behind those screens:

- `seqs.dfy` (`Seqs`): the JavaScript array operations the screens are built from.
  `find` returns the first match. `filter` keeps order. `some` is an existence test.
  `reduce` is a left-fold sum. Each has a contract. The sum's contract fixes a one-term
  sum as that term (and gives its sign); with the lemma `Seqs.SumOfConcat`, which states
  that it adds up over any split of the list, this fixes its value.
- `mock_data.dfy` (`MockData`): the record types and the seed collections, copied
  field by field. The fixture invariants are predicates: levels in 1..5, unique ids,
  foreign keys that resolve, and `score <= maxScore`. Lemmas prove the seed meets them.
- `hr_dashboard.dfy` (`HRDashboard`): the recruiter's derivations:
  - the company's vacancies;
  - the application ⟶ (student, vacancy) join and its company filter;
  - the level-filtered candidate bank;
  - the three header counters;
  - the application cards, which skip applicants with a lookup miss and offer
    "invite to interview" only for applications under review;
  - the dashboard's tab and filter state.
- `student_dashboard.dfy` (`StudentDashboard`): the student's derivations:
  - the vacancies at or below the student's level;
  - the "completed" / "start test" choice on each catalogue card;
  - the header counters, including the rounded average score;
  - the dashboard's tab state.
- `app.dfy` (`App`): the `userRole` state machine. It has the role-selection and
  back transitions, and the mounting of a fresh dashboard when a role is entered.
  It also says which page and which fixture record (`mockStudents[0]`, `mockHR[0]`)
  is on screen.

The fixture collections are parameters of every derivation. Each property therefore
holds for any data, not only the seed. Separate lemmas apply the properties to the
seed.

An application whose student lookup fails is not dropped
(`src/app/components/HRDashboard.tsx:33-37`). It stays in `applicants`, and the
"reviewing" counter still counts it (line 100). Only the render loop skips it
(line 269). `HRDashboard.StudentMissCountedNotRendered` states this.

## Model

| member | source | states |
|---|---|---|
| Seqs.Find | src/app/components/HRDashboard.tsx:34-35 | `find` returns `None` exactly when no element matches; otherwise it returns an element that matches and that no earlier element precedes with a match |
| Seqs.Filter | src/app/components/HRDashboard.tsx:30 | `filter` keeps exactly the elements satisfying the predicate, as an order-preserving subsequence; it keeps everything iff all match and nothing iff none match |
| Seqs.FilterConcat | src/app/components/HRDashboard.tsx:30 | filtering a concatenation is the concatenation of the filtered parts (no reordering across the input) |
| Seqs.Any | src/app/components/StudentDashboard.tsx:133 | `some` is true iff some element satisfies the predicate |
| Seqs.Map | src/app/components/HRDashboard.tsx:33-36 | `map` keeps the length and puts `f` of the element at each position |
| Seqs.SumOf | src/app/components/HRDashboard.tsx:86 | `reduce` with `+` from 0: a one-term sum is that term, a sum of non-negative terms is non-negative, and a sum of zeros is 0; with `Seqs.SumOfConcat` this fixes the value as the sum of all terms |
| Seqs.SumOfConcat | src/app/components/HRDashboard.tsx:86 | the `reduce` sum over a concatenation is the sum of the two parts' sums |
| Seqs.SumOfNonNegative | src/app/components/HRDashboard.tsx:86 | a `reduce` sum of non-negative terms is at least each of its terms |
| MockData.SeedStudentsWellFormed | src/app/data/mockData.ts:94-141 | both seeded students have a level in 1..5; each of their results has a level in 1..5, `0 <= score <= maxScore` with `maxScore > 0`, and a `testId` that names a catalogue test |
| MockData.SeedApplicationsResolve | src/app/data/mockData.ts:192-207 | every seeded application's vacancy and student ids resolve; a1 refers to v1/s1 and a2 to v2/s2 |
| MockData.SeedIdsUnique | src/app/data/mockData.ts:75-268 | ids are unique within companies, students, vacancies, applications and tests |
| MockData.SeedVacanciesWellFormed | src/app/data/mockData.ts:155-189 | every seeded vacancy requires a level in 1..5 and embeds one of the seeded companies |
| MockData.SeedWellFormed | src/app/data/mockData.ts:75-268 | the seed satisfies the whole fixture invariant at once |
| MockData.SeedHRCompany | src/app/data/mockData.ts:144-189 | recruiter hr1 embeds company "1", and v1 is the only vacancy of that company |
| HRDashboard.StudentById | src/app/components/HRDashboard.tsx:34 | the student lookup misses iff no student has the id, and otherwise yields the first student with that id |
| HRDashboard.VacancyById | src/app/components/HRDashboard.tsx:35 | the vacancy lookup misses iff no vacancy has the id, and otherwise yields the first vacancy with that id |
| HRDashboard.StudentByUniqueId | src/app/components/HRDashboard.tsx:34 | when student ids are unique, looking up a student's id returns that student |
| HRDashboard.VacancyByUniqueId | src/app/components/HRDashboard.tsx:35 | when vacancy ids are unique, looking up a vacancy's id returns that vacancy |
| HRDashboard.CompanyVacancies | src/app/components/HRDashboard.tsx:30 | the recruiter's vacancies are exactly those whose company id equals the recruiter's company id, in fixture order |
| HRDashboard.CompanyVacanciesConcat | src/app/components/HRDashboard.tsx:30 | the company filter never reorders: the vacancies of a split list are the two parts' results concatenated |
| HRDashboard.Join | src/app/components/HRDashboard.tsx:33-36 | the joined record keeps the application; each lookup misses iff no record has the id, and otherwise holds a fixture record with that id |
| HRDashboard.Applicants | src/app/components/HRDashboard.tsx:33-37 | every applicant is an input application joined with its student and vacancy lookups and belongs to the company; every application whose vacancy resolves to the company is present |
| HRDashboard.ApplicantsAreCompanyApplications | src/app/components/HRDashboard.tsx:33-37 | projected back to applications, the applicant list is exactly the in-order subsequence of applications whose vacancy resolves to a company vacancy; the join keeps every application field |
| HRDashboard.VacancyMissExcluded | src/app/components/HRDashboard.tsx:35-37 | an application whose vacancy id matches no vacancy is absent from the applicant list |
| HRDashboard.Card | src/app/components/HRDashboard.tsx:269-343 | an applicant gets a card iff both lookups succeeded; on the card, "invite to interview" is offered iff the status is `reviewing` |
| HRDashboard.ApplicationCards | src/app/components/HRDashboard.tsx:268-269 | the rendered list has exactly one card per applicant whose student and vacancy lookups both succeeded, in applicant order |
| HRDashboard.InviteOnlyWhenReviewing | src/app/components/HRDashboard.tsx:268-343 | every rendered card is the card of some applicant, and it offers "invite to interview" iff that application is under review |
| HRDashboard.ReviewingCount | src/app/components/HRDashboard.tsx:100 | the "reviewing" counter is at most the number of applicants, is 0 iff none is under review, and equals the list length iff all are |
| HRDashboard.StudentMissCountedNotRendered | src/app/components/HRDashboard.tsx:37-269 | an application of the company whose student lookup misses stays in the applicant list and gets no card; if it is under review, the counter exceeds the number of reviewing cards shown |
| HRDashboard.ReviewingCountConcat | src/app/components/HRDashboard.tsx:100 | the "reviewing" counter adds up over any split of the applicant list; with the one-applicant case of `ReviewingCount` this makes it the exact number of applicants under review |
| HRDashboard.ResolvedApplicantsAllRender | src/app/components/HRDashboard.tsx:268-269 | when every application's foreign keys resolve, every applicant gets a card |
| HRDashboard.TotalApplicationsIgnoresApplications | src/app/components/HRDashboard.tsx:86 | the "total applications" counter does not depend on the application records, and adds up over a split of the vacancy list |
| HRDashboard.TotalApplications | src/app/components/HRDashboard.tsx:86 | the total over a single vacancy is its `applications` counter; it is non-negative over non-negative counters and 0 over zero counters; with `Seqs.SumOfConcat` (additivity over any split) it is the sum of all counters |
| HRDashboard.HRStats | src/app/components/HRDashboard.tsx:73-100 | the active-vacancy counter is the number of company vacancies (at most the number of vacancies, 0 iff none belongs to the company); the total is `TotalApplications` of the company vacancies, non-negative over non-negative counters; the reviewing counter is `ReviewingCount` of the applicant list, at most the number of applications |
| HRDashboard.TotalApplicationsBound | src/app/components/HRDashboard.tsx:86 | with non-negative counters, the total is at least each company vacancy's own `applications` counter |
| HRDashboard.FilteredStudents | src/app/components/HRDashboard.tsx:40-42 | filter "all" returns the student list unchanged; level L returns exactly the students whose level equals L, in order |
| HRDashboard.LevelOneOnlyUnderAll | src/app/components/HRDashboard.tsx:193-203 | of the offered filter options ("all", 2..5), a level-1 student appears only under "all" |
| HRDashboard.LevelOptionsPartition | src/app/components/HRDashboard.tsx:198-202 | a student of level 2..5 appears under exactly one level option, the one equal to their level |
| HRDashboard.SelectTab | src/app/components/HRDashboard.tsx:122 | `setSelectedTab` sets the tab and keeps the level filter |
| HRDashboard.SetFilter | src/app/components/HRDashboard.tsx:193 | `setFilterLevel` sets the filter and keeps the tab |
| HRDashboard.ShownPanel | src/app/components/HRDashboard.tsx:122-129 | each tab selects its own panel: the vacancies tab lists the company's vacancies, the candidates tab the students under the selected level filter, the applications tab the cards of the company's applicants |
| HRDashboard.StatsMatchPanels | src/app/components/HRDashboard.tsx:73-86 | whatever tab and filter are selected, the active-vacancy counter is the length of the vacancies tab's list and the total is the sum of that list's counters |
| HRDashboard.InitialView | src/app/components/HRDashboard.tsx:26-27 | a fresh dashboard shows the vacancies tab, and its candidate bank starts unfiltered |
| HRDashboard.FilterOnlyAffectsCandidates | src/app/components/HRDashboard.tsx:176-208 | changing the level filter changes nothing outside the candidate tab, and the filter survives switching tabs |
| HRDashboard.SeedCompanyVacancies | src/app/components/HRDashboard.tsx:30 | on the seed, hr1's company vacancies are exactly [v1] |
| HRDashboard.SeedJoins | src/app/components/HRDashboard.tsx:33-36 | on the seed, a1 joins to s1/v1 and a2 to s2/v2 |
| HRDashboard.SeedApplicants | src/app/components/HRDashboard.tsx:33-37 | on the seed, hr1's applicant list is a1 joined with s1 and v1 only |
| HRDashboard.SeedStats | src/app/components/HRDashboard.tsx:73-100 | on the seed, the counters read 1 vacancy, 12 applications (the vacancy's display counter) and 1 under review |
| StudentDashboard.AvailableVacancies | src/app/components/StudentDashboard.tsx:28 | a vacancy is listed iff its required level is at most the student's level, equality included, in fixture order |
| StudentDashboard.AvailableMonotone | src/app/components/StudentDashboard.tsx:28 | raising the student's level never removes a vacancy: the lower level's list is the higher level's list filtered again, so it is a subsequence of it |
| StudentDashboard.Completed | src/app/components/StudentDashboard.tsx:133 | a test counts as completed iff some result of the student has that test's id |
| StudentDashboard.TestCardFor | src/app/components/StudentDashboard.tsx:133-155 | a card shows "completed" iff a result has the test's id, and "start test" iff none has; the level badge is filled exactly when the card shows "completed" |
| StudentDashboard.TestCards | src/app/components/StudentDashboard.tsx:125-159 | one card per catalogue test, in catalogue order, each marked completed iff the student has a result for that test |
| StudentDashboard.Round | src/app/components/StudentDashboard.tsx:84 | `Math.round` yields the integer within one half of its argument, halves rounded up |
| StudentDashboard.AverageScore | src/app/components/StudentDashboard.tsx:83-85 | the average is 0 with no results; it is not a number iff some result has `maxScore` 0; otherwise it is the mean percentage rounded half up |
| StudentDashboard.Percent | src/app/components/StudentDashboard.tsx:84 | a result's percentage `p` satisfies `p * maxScore == 100 * score` |
| StudentDashboard.PercentSum | src/app/components/StudentDashboard.tsx:84 | the `reduce` over the percentages is 0 for no results and a single result's percentage for one; with `PercentSumConcat` this fixes it as the sum of all percentages |
| StudentDashboard.PercentSumConcat | src/app/components/StudentDashboard.tsx:84 | the `reduce` over the percentages adds up over any split of the results |
| StudentDashboard.PercentSumInRange | src/app/components/StudentDashboard.tsx:84 | with in-range scores, the sum of the percentages lies between 0 and 100 per result |
| StudentDashboard.PercentSumUniform | src/app/components/StudentDashboard.tsx:84 | results of one common percentage sum to that percentage times their number |
| StudentDashboard.AverageInRange | src/app/components/StudentDashboard.tsx:83-85 | with every score between 0 and its maximum, the average is a number between 0 and 100 |
| StudentDashboard.AverageOfUniform | src/app/components/StudentDashboard.tsx:84 | results that all score the same whole percentage average to that percentage |
| StudentDashboard.AverageRoundsHalfUp | src/app/components/StudentDashboard.tsx:84 | results 85/100 and 92/100 average 88.5, which shows as 89 |
| StudentDashboard.PercentInRange | src/app/components/StudentDashboard.tsx:244 | a result whose score lies between 0 and its maximum has a percentage between 0 and 100 |
| StudentDashboard.Subtitle | src/app/components/StudentDashboard.tsx:42 | the header shows the bio when it is present and non-empty, and the e-mail otherwise |
| StudentDashboard.StatsMatchPanels | src/app/components/StudentDashboard.tsx:58-70 | the tests-taken counter equals the number of result cards, and the vacancy counter equals the number of vacancy cards |
| StudentDashboard.StudentStats | src/app/components/StudentDashboard.tsx:51-92 | tests taken is the number of results; the vacancy counter is at most the number of vacancies, equals it iff every vacancy is open to the student's level and is 0 iff none is; the average counter is `AverageScore` of the results (0 with no results, otherwise the rounded mean percentage) |
| StudentDashboard.AboutText | src/app/components/StudentDashboard.tsx:282 | the profile's "about" field shows the bio when it is present and non-empty, and "Не заполнено" otherwise |
| StudentDashboard.ShownPanel | src/app/components/StudentDashboard.tsx:108-114 | each tab selects its own panel: the tests tab shows the catalogue cards, the vacancies tab the available vacancies, the results tab the student's results, and the profile tab the student with the "about" text of `AboutText` |
| StudentDashboard.SeedAvailable | src/app/components/StudentDashboard.tsx:28 | Anna (level 3) sees v1 (level 3, the boundary case) and v3 (level 2), but not v2 (level 4) |
| StudentDashboard.SeedStats | src/app/components/StudentDashboard.tsx:51-92 | Anna's counters read 1 test taken, 2 vacancies available and an 85 average |
| StudentDashboard.SeedTestCards | src/app/components/StudentDashboard.tsx:148-155 | Anna's test1 card shows "completed" and the test2 and test3 cards show "start test" |
| App.Shown | src/app/App.tsx:22-48 | with no role the landing page shows; the student role shows the student dashboard for `mockStudents[0]`, the recruiter role the HR dashboard for `mockHR[0]`, each with the panel of its mounted tab (and filter) |
| App.StartIsLanding | src/app/App.tsx:8-24 | the initial role is null, and the landing page is on screen |
| App.StepConsistent | src/app/App.tsx:14-20 | every transition keeps the mounted dashboard in step with `userRole` |
| App.Step | src/app/App.tsx:14-20 | selecting a role sets `userRole` to exactly that role and, coming from the landing page, mounts a fresh dashboard; going back returns to the start; a tab or filter event sets the mounted dashboard's tab or filter (`setSelectedTab`, `setFilterLevel`), keeps the role, and is ignored when that dashboard is not mounted |
| App.Run | src/app/App.tsx:14-20 | after a run ending in "back" the session is the start; after one ending in a role selection that role is set; a run without role or back events keeps the role |
| App.RunConsistent | src/app/App.tsx:14-48 | after any sequence of interactions, the mounted dashboard is still the one `userRole` selects |
| App.BackIsLanding | src/app/App.tsx:18-20 | going back from any state clears the role and shows the landing page |
| App.EnterFromLanding | src/app/App.tsx:44-48 | entering a role from the landing page mounts a fresh dashboard: the student sees the test tab, the recruiter the vacancies tab |
| App.ReenterResets | src/app/App.tsx:18-48 | whatever was done inside a dashboard, going back and re-entering a role starts that dashboard at its initial state |
| App.RunAppend | src/app/App.tsx:14-20 | running two event sequences in a row is running their concatenation |
| App.HRRoundTrip | src/app/App.tsx:14-20 | choosing the recruiter role from the start mounts the HR dashboard on its vacancies tab with filter "all", and going back returns to the start |

## Left out

- `App.Step` accepts `SelectRole` from any session. In the app the role buttons exist only on the landing page, which renders only while `userRole` is null (`src/app/App.tsx:22-23`), so a direct switch from one dashboard to the other cannot happen. The model over-approximates: it treats such a switch as React would (a different component is mounted fresh), and selecting the current role again changes nothing.
- JSX markup, CSS classes, icons and the `./ui/*` components are pure presentation or library code and are not modelled. The cards carry only the values their logic depends on.
- `LandingPage.tsx` only calls `onSelectRole('student' | 'hr')`. That call is the `SelectRole` event of `App`.
- The `Date` fields (`completedAt`, `postedAt`, `appliedAt`) and their `ru-RU` formatting are display-only. They are not part of the records.
- The optional `avatar` and `logo` fields are never set in the seed and never read, so they are left out. The `role` discriminator of `Student` and `HR` is carried by the type.
- `Message`, `mockMessages` and the hard-coded "2" messages counter are not modelled, because no logic reads them.
- The skill search input and all buttons without a handler (create, edit, apply, start test, invite, message) are left out. They have no behaviour.
- The level select's string value and `parseInt` are not modelled. The select only offers "all" and "2"–"5", so the filter is a datatype `All | Level(n)`.
- Floating point is not modelled. Percentages are exact reals, so the model has no rounding drift. The per-test rounded badge and the `Progress` values are not modelled beyond `StudentDashboard.PercentInRange`.
- StudentDashboard.AverageScore: a result with `maxScore` 0 gives `None`. The model does not tell the JavaScript `NaN` and `Infinity` displays apart.
- JavaScript numbers are modelled as unbounded integers (levels, scores, counters). The seed values are small, so no precision limit matters.
- The results tab shows stored fields only (the `passed` badge, feedback). The profile tab shows stored fields (name, e-mail, skills, level) and one derived value, the "about" text, which `StudentDashboard.AboutText` models. Both are panels that carry the data, without their markup.
- The status label and colour tables of the application cards are presentation and are not modelled.

=== FILE: app.dfy ===
/**
  The application shell: the `userRole` state (none, student or recruiter),
  the two transitions that change it (picking a role on the landing page and
  the "back to start" link), and which page and which fixture record are on
  screen.

  A dashboard keeps its own tab state only while it is mounted: switching
  from the landing page to a dashboard mounts a fresh one, whose state starts
  at that dashboard's initial value, and going back unmounts it. `Session`
  pairs `userRole` with the state of whichever dashboard is mounted.
 */
module App {
  import opened Seqs
  import opened MockData
  import StudentDashboard
  import HRDashboard

  datatype Role = StudentRole | HRRole

  /** Local state of the mounted dashboard, if any. */
  datatype Mounted =
    | Unmounted
    | StudentMounted(tab: StudentDashboard.Tab)
    | HRMounted(state: HRDashboard.State)

  datatype Session = Session(userRole: Option<Role>, mounted: Mounted)

  /** The dashboard mounted is the one `userRole` selects, and none on the landing page. */
  predicate Consistent(s: Session) {
    match s.userRole
    case None => s.mounted.Unmounted?
    case Some(StudentRole) => s.mounted.StudentMounted?
    case Some(HRRole) => s.mounted.HRMounted?
  }

  /** `useState(null)`: no role, landing page. */
  const Start: Session := Session(None, Unmounted)

  /** A freshly mounted dashboard for `role`. */
  function Mount(role: Role): Mounted {
    match role
    case StudentRole => StudentMounted(StudentDashboard.InitialTab)
    case HRRole => HRMounted(HRDashboard.Initial)
  }

  /** User interactions. Tab and filter events reach only the dashboard on screen. */
  datatype Event =
    | SelectRole(role: Role)
    | BackToLanding
    | StudentSelectTab(studentTab: StudentDashboard.Tab)
    | HRSelectTab(hrTab: HRDashboard.Tab)
    | HRSetFilter(filter: HRDashboard.LevelFilter)

  function Step(s: Session, e: Event): (r: Session)
    ensures e.SelectRole? ==> r.userRole == Some(e.role)
    ensures e.SelectRole? && s.userRole != Some(e.role) ==> r.mounted == Mount(e.role)
    ensures e.BackToLanding? ==> r == Start
    ensures !e.SelectRole? && !e.BackToLanding? ==> r.userRole == s.userRole
    ensures e.StudentSelectTab? && s.mounted.StudentMounted? ==> r.mounted == StudentMounted(e.studentTab)
    ensures e.HRSelectTab? && s.mounted.HRMounted? ==>
      r.mounted == HRMounted(HRDashboard.SelectTab(s.mounted.state, e.hrTab))
    ensures e.HRSetFilter? && s.mounted.HRMounted? ==>
      r.mounted == HRMounted(HRDashboard.SetFilter(s.mounted.state, e.filter))
    ensures (e.StudentSelectTab? && !s.mounted.StudentMounted?) || ((e.HRSelectTab? || e.HRSetFilter?) && !s.mounted.HRMounted?) ==>
      r == s
  {
    match e
    case SelectRole(role) =>
      // The role buttons are on the landing page only, so in the app this
      // event arrives with no role set. From a dashboard it is an
      // over-approximation: the same role again changes nothing, a different
      // role replaces the dashboard component, which then starts fresh.
      if s.userRole == Some(role) then s else Session(Some(role), Mount(role))
    case BackToLanding => Session(None, Unmounted)
    case StudentSelectTab(t) =>
      if s.mounted.StudentMounted? then s.(mounted := StudentMounted(t)) else s
    case HRSelectTab(t) =>
      if s.mounted.HRMounted? then s.(mounted := HRMounted(HRDashboard.SelectTab(s.mounted.state, t))) else s
    case HRSetFilter(f) =>
      if s.mounted.HRMounted? then s.(mounted := HRMounted(HRDashboard.SetFilter(s.mounted.state, f))) else s
  }

  /** The session after a sequence of interactions, first event first. */
  function Run(s: Session, events: seq<Event>): (r: Session)
    ensures |events| > 0 && events[|events| - 1] == BackToLanding ==> r == Start
    ensures |events| > 0 && events[|events| - 1].SelectRole? ==> r.userRole == Some(events[|events| - 1].role)
    ensures (forall k :: 0 <= k < |events| ==> !events[k].SelectRole? && !events[k].BackToLanding?) ==> r.userRole == s.userRole
    decreases |events|
  {
    if |events| == 0 then s else Run(Step(s, events[0]), events[1..])
  }

  // ---------------------------------------------------------------------------
  // What is on screen

  datatype Screen =
    | LandingPage
    | StudentScreen(student: Student, studentPanel: StudentDashboard.Panel)
    | HRScreen(hr: HR, hrPanel: HRDashboard.Panel)

  /** The page for a session: landing when no role is set, otherwise the
      dashboard for the first student or the first recruiter of the fixture. */
  function Shown(s: Session): (r: Screen)
    requires Consistent(s)
    ensures r.LandingPage? <==> s.userRole.None?
    ensures s.userRole == Some(StudentRole) ==> r.StudentScreen? && r.student == Students[0]
    ensures s.userRole == Some(HRRole) ==> r.HRScreen? && r.hr == HRs[0]
    ensures s.mounted.StudentMounted? ==>
      r.studentPanel == StudentDashboard.ShownPanel(s.mounted.tab, Students[0], Vacancies, Tests)
    ensures s.mounted.HRMounted? ==>
      r.hrPanel == HRDashboard.ShownPanel(s.mounted.state, MockData.Applications, Students, Vacancies, HRs[0])
  {
    match s.mounted
    case Unmounted => LandingPage
    case StudentMounted(tab) =>
      StudentScreen(Students[0], StudentDashboard.ShownPanel(tab, Students[0], Vacancies, Tests))
    case HRMounted(state) =>
      HRScreen(HRs[0], HRDashboard.ShownPanel(state, MockData.Applications, Students, Vacancies, HRs[0]))
  }

  // ---------------------------------------------------------------------------
  // Properties of the state machine

  lemma StartIsLanding()
    ensures Consistent(Start)
    ensures Shown(Start) == LandingPage
  {
  }

  lemma StepConsistent(s: Session, e: Event)
    requires Consistent(s)
    ensures Consistent(Step(s, e))
  {
  }

  /** Every session reachable from the start keeps role and mounted dashboard in step. */
  lemma {:induction false} RunConsistent(s: Session, events: seq<Event>)
    requires Consistent(s)
    ensures Consistent(Run(s, events))
    decreases |events|
  {
    if |events| > 0 {
      StepConsistent(s, events[0]);
      RunConsistent(Step(s, events[0]), events[1..]);
    }
  }

  /** Going back from any session clears the role and shows the landing page. */
  lemma BackIsLanding(s: Session)
    ensures Step(s, BackToLanding) == Start
    ensures Shown(Step(s, BackToLanding)) == LandingPage
  {
  }

  /** Entering a role from the landing page mounts a fresh dashboard: the
      student sees the test catalogue, the recruiter the company's vacancies. */
  lemma EnterFromLanding(s: Session, role: Role)
    requires Consistent(s) && s.userRole.None?
    ensures Step(s, SelectRole(role)).mounted == Mount(role)
    ensures role == StudentRole ==>
      Shown(Step(s, SelectRole(role)))
        == StudentScreen(Students[0], StudentDashboard.TestList(StudentDashboard.TestCards(Students[0], Tests)))
    ensures role == HRRole ==>
      Shown(Step(s, SelectRole(role)))
        == HRScreen(HRs[0], HRDashboard.VacancyList(HRDashboard.CompanyVacancies(Vacancies, HRs[0])))
  {
  }

  /** Nothing chosen inside a dashboard survives leaving it: after going back
      and re-entering, the dashboard is at its initial tab and filter again. */
  lemma ReenterResets(s: Session, inside: seq<Event>, role: Role)
    ensures Run(s, inside + [BackToLanding, SelectRole(role)]).mounted == Mount(role)
  {
    var leave := [BackToLanding, SelectRole(role)];
    RunAppend(s, inside, leave);
    var mid := Run(s, inside);
    assert leave[1..] == [SelectRole(role)];
    assert [SelectRole(role)][1..] == [];
    assert Run(mid, leave) == Run(Start, [SelectRole(role)]);
    assert Run(Start, [SelectRole(role)]) == Run(Step(Start, SelectRole(role)), []);
  }

  lemma {:induction false} RunAppend(s: Session, xs: seq<Event>, ys: seq<Event>)
    ensures Run(s, xs + ys) == Run(Run(s, xs), ys)
    decreases |xs|
  {
    if |xs| == 0 {
      assert xs + ys == ys;
    } else {
      assert (xs + ys)[0] == xs[0];
      assert (xs + ys)[1..] == xs[1..] + ys;
      RunAppend(Step(s, xs[0]), xs[1..], ys);
    }
  }

  /** Choosing the recruiter role and going back returns to the landing page,
      passing through the recruiter's dashboard on its vacancies tab with the
      level filter on "all". */
  lemma HRRoundTrip()
    ensures Step(Start, SelectRole(HRRole)) == Session(Some(HRRole), HRMounted(HRDashboard.State(HRDashboard.VacanciesTab, HRDashboard.All)))
    ensures Run(Start, [SelectRole(HRRole), BackToLanding]) == Start
  {
    assert [SelectRole(HRRole), BackToLanding][1..] == [BackToLanding];
    assert [BackToLanding][1..] == [];
  }
}

=== FILE: hr_dashboard.dfy ===
/**
  What the recruiter's dashboard derives from the fixture store: the
  company's vacancies, the applications to them joined with their student
  and vacancy, the level-filtered candidate bank, the header counters, the
  application cards with their status-gated invitation button, and the
  dashboard's own tab/filter state.

  The fixture collections are parameters, so every property holds for any
  data, not only the seed; lemmas at the end apply them to the seed.
 */
module HRDashboard {
  import opened Seqs
  import opened MockData

  // ---------------------------------------------------------------------------
  // Lookups: `find` by id, so the FIRST record with a matching id wins

  function StudentById(students: seq<Student>, id: string): (r: Option<Student>)
    ensures r.None? <==> forall j :: 0 <= j < |students| ==> students[j].id != id
    ensures r.Some? ==> r.value.id == id
    ensures r.Some? ==> exists i :: 0 <= i < |students| && students[i] == r.value && forall j :: 0 <= j < i ==> students[j].id != id
  {
    Find(students, (s: Student) => s.id == id)
  }

  function VacancyById(vacancies: seq<Vacancy>, id: string): (r: Option<Vacancy>)
    ensures r.None? <==> forall j :: 0 <= j < |vacancies| ==> vacancies[j].id != id
    ensures r.Some? ==> r.value.id == id
    ensures r.Some? ==> exists i :: 0 <= i < |vacancies| && vacancies[i] == r.value && forall j :: 0 <= j < i ==> vacancies[j].id != id
  {
    Find(vacancies, (v: Vacancy) => v.id == id)
  }

  /** With unique ids the lookup returns the one record carrying the id. */
  lemma VacancyByUniqueId(vacancies: seq<Vacancy>, i: nat)
    requires UniqueBy(vacancies, (v: Vacancy) => v.id)
    requires i < |vacancies|
    ensures VacancyById(vacancies, vacancies[i].id) == Some(vacancies[i])
  {
    FindUnique(vacancies, (v: Vacancy) => v.id == vacancies[i].id, i);
  }

  lemma StudentByUniqueId(students: seq<Student>, i: nat)
    requires UniqueBy(students, (s: Student) => s.id)
    requires i < |students|
    ensures StudentById(students, students[i].id) == Some(students[i])
  {
    FindUnique(students, (s: Student) => s.id == students[i].id, i);
  }

  // ---------------------------------------------------------------------------
  // The company's vacancies

  function PostedBy(hr: HR): Vacancy -> bool {
    (v: Vacancy) => v.company.id == hr.company.id
  }

  /** The vacancies whose embedded company has the recruiter's company id, in fixture order. */
  function CompanyVacancies(vacancies: seq<Vacancy>, hr: HR): (r: seq<Vacancy>)
    ensures forall j :: 0 <= j < |r| ==> r[j] in vacancies && r[j].company.id == hr.company.id
    ensures forall j :: 0 <= j < |vacancies| && vacancies[j].company.id == hr.company.id ==> vacancies[j] in r
    ensures Subsequence(r, vacancies)
    ensures |r| <= |vacancies|
    ensures |r| == 0 <==> forall j :: 0 <= j < |vacancies| ==> vacancies[j].company.id != hr.company.id
  {
    Filter(vacancies, PostedBy(hr))
  }

  /** No reordering: the company's vacancies of a concatenation are those of
      the first part followed by those of the second. */
  lemma CompanyVacanciesConcat(xs: seq<Vacancy>, ys: seq<Vacancy>, hr: HR)
    ensures CompanyVacancies(xs + ys, hr) == CompanyVacancies(xs, hr) + CompanyVacancies(ys, hr)
  {
    FilterConcat(xs, ys, PostedBy(hr));
  }

  // ---------------------------------------------------------------------------
  // Applicants: each application joined with its student and vacancy

  /** `{ ...app, student, vacancy }`: every application field, plus the two lookups. */
  datatype Applicant = Applicant(app: Application, student: Option<Student>, vacancy: Option<Vacancy>)

  /** Every field of `app` is kept; each lookup misses exactly when no record
      has the id, and otherwise finds a record of the fixture with that id. */
  function Join(app: Application, students: seq<Student>, vacancies: seq<Vacancy>): (r: Applicant)
    ensures r.app == app
    ensures r.student.None? <==> forall j :: 0 <= j < |students| ==> students[j].id != app.studentId
    ensures r.student.Some? ==> r.student.value in students && r.student.value.id == app.studentId
    ensures r.vacancy.None? <==> forall j :: 0 <= j < |vacancies| ==> vacancies[j].id != app.vacancyId
    ensures r.vacancy.Some? ==> r.vacancy.value in vacancies && r.vacancy.value.id == app.vacancyId
  {
    Applicant(app, StudentById(students, app.studentId), VacancyById(vacancies, app.vacancyId))
  }

  function JoinWith(students: seq<Student>, vacancies: seq<Vacancy>): Application -> Applicant {
    (app: Application) => Join(app, students, vacancies)
  }

  /** `app.vacancy?.company.id === hr.company.id`: false when the vacancy lookup missed. */
  predicate ForCompany(hr: HR, a: Applicant) {
    a.vacancy.Some? && a.vacancy.value.company.id == hr.company.id
  }

  /** The same test stated on the raw application. */
  predicate AppliesToCompany(vacancies: seq<Vacancy>, hr: HR, app: Application) {
    match VacancyById(vacancies, app.vacancyId)
    case None => false
    case Some(v) => v.company.id == hr.company.id
  }

  function ApplicantsWhere(hr: HR): Applicant -> bool {
    (a: Applicant) => ForCompany(hr, a)
  }

  function Applicants(apps: seq<Application>, students: seq<Student>, vacancies: seq<Vacancy>, hr: HR): (r: seq<Applicant>)
    ensures forall j :: 0 <= j < |r| ==> r[j].app in apps && r[j] == Join(r[j].app, students, vacancies)
    ensures forall j :: 0 <= j < |r| ==> AppliesToCompany(vacancies, hr, r[j].app)
    ensures forall j :: 0 <= j < |apps| && AppliesToCompany(vacancies, hr, apps[j]) ==> Join(apps[j], students, vacancies) in r
    ensures |r| <= |apps|
  {
    var joined := Map(apps, JoinWith(students, vacancies));
    Filter(joined, ApplicantsWhere(hr))
  }

  function AppOf(a: Applicant): Application {
    a.app
  }

  function AppliesTo(vacancies: seq<Vacancy>, hr: HR): Application -> bool {
    (app: Application) => AppliesToCompany(vacancies, hr, app)
  }

  /** Stripped of the joined records, the applicants are exactly the
      applications whose vacancy resolves to one of the company's, in their
      original order: the join adds fields and the filter removes only
      vacancy misses and other companies' applications. */
  lemma ApplicantsAreCompanyApplications(apps: seq<Application>, students: seq<Student>, vacancies: seq<Vacancy>, hr: HR)
    ensures Map(Applicants(apps, students, vacancies, hr), AppOf) == Filter(apps, AppliesTo(vacancies, hr))
  {
    FilterMapProject(apps, JoinWith(students, vacancies), AppOf, ApplicantsWhere(hr), AppliesTo(vacancies, hr));
  }

  /** A dangling `vacancyId` removes the application from the list. */
  lemma VacancyMissExcluded(apps: seq<Application>, students: seq<Student>, vacancies: seq<Vacancy>, hr: HR, app: Application)
    requires forall j :: 0 <= j < |vacancies| ==> vacancies[j].id != app.vacancyId
    ensures forall j :: 0 <= j < |Applicants(apps, students, vacancies, hr)| ==> Applicants(apps, students, vacancies, hr)[j].app != app
  {
  }

  // ---------------------------------------------------------------------------
  // Application cards: the render loop skips applicants with a lookup miss

  predicate Renders(a: Applicant) {
    a.student.Some? && a.vacancy.Some?
  }

  /** What one application card shows; `inviteOffered` is the interview button. */
  datatype ApplicationCard = ApplicationCard(
    applicationId: string,
    studentName: string,
    vacancyTitle: string,
    status: Status,
    studentLevel: int,
    inviteOffered: bool)

  function Card(a: Applicant): (r: Option<ApplicationCard>)
    ensures r.Some? <==> a.student.Some? && a.vacancy.Some?
    ensures r.Some? ==> (r.value.inviteOffered <==> a.app.status == Reviewing)
    ensures r.Some? ==> r.value.applicationId == a.app.id && r.value.status == a.app.status
  {
    if a.student.None? || a.vacancy.None? then None
    else
      Some(ApplicationCard(a.app.id, a.student.value.name, a.vacancy.value.title,
        a.app.status, a.student.value.level, a.app.status == Reviewing))
  }

  /** The rendered list: one card per applicant whose lookups both succeeded, in order. */
  function ApplicationCards(applicants: seq<Applicant>): (r: seq<ApplicationCard>)
    ensures |r| == |Filter(applicants, Renders)|
    ensures forall j :: 0 <= j < |r| ==> Card(Filter(applicants, Renders)[j]) == Some(r[j])
  {
    if |applicants| == 0 then []
    else
      var rest := ApplicationCards(applicants[1..]);
      FilterCons(applicants, Renders);
      match Card(applicants[0])
      case None => rest
      case Some(c) =>
        CardsCons(c, rest, applicants[0], Filter(applicants[1..], Renders));
        [c] + rest
  }

  lemma CardsCons(c: ApplicationCard, cards: seq<ApplicationCard>, a: Applicant, shown: seq<Applicant>)
    requires Card(a) == Some(c)
    requires |cards| == |shown| && forall j :: 0 <= j < |cards| ==> Card(shown[j]) == Some(cards[j])
    ensures forall j :: 0 <= j < |cards| + 1 ==> Card(([a] + shown)[j]) == Some(([c] + cards)[j])
  {
    forall j | 0 <= j < |cards| + 1
      ensures Card(([a] + shown)[j]) == Some(([c] + cards)[j])
    {
      if j > 0 {
        assert ([a] + shown)[j] == shown[j - 1];
        assert ([c] + cards)[j] == cards[j - 1];
      }
    }
  }

  /** On every rendered card, "invite to interview" is offered exactly for
      applications under review, and the card belongs to a listed applicant. */
  lemma InviteOnlyWhenReviewing(applicants: seq<Applicant>)
    ensures forall j :: 0 <= j < |ApplicationCards(applicants)| ==>
      (ApplicationCards(applicants)[j].inviteOffered <==> ApplicationCards(applicants)[j].status == Reviewing)
    ensures forall j :: 0 <= j < |ApplicationCards(applicants)| ==>
      exists i :: 0 <= i < |applicants| && Card(applicants[i]) == Some(ApplicationCards(applicants)[j])
  {
    var r := ApplicationCards(applicants);
    var shown := Filter(applicants, Renders);
    forall j | 0 <= j < |r|
      ensures (r[j].inviteOffered <==> r[j].status == Reviewing)
      ensures exists i :: 0 <= i < |applicants| && Card(applicants[i]) == Some(r[j])
    {
      assert Card(shown[j]) == Some(r[j]);
      var i :| 0 <= i < |applicants| && applicants[i] == shown[j];
    }
  }

  // ---------------------------------------------------------------------------
  // Header counters

  function ApplicationsCounter(v: Vacancy): int {
    v.applications
  }

  /** Sum of the vacancies' display counters, as `reduce` adds them. */
  function TotalApplications(vacancies: seq<Vacancy>): (r: int)
    ensures (forall j :: 0 <= j < |vacancies| ==> vacancies[j].applications >= 0) ==> r >= 0
    ensures (forall j :: 0 <= j < |vacancies| ==> vacancies[j].applications == 0) ==> r == 0
    ensures |vacancies| == 1 ==> r == vacancies[0].applications
  {
    SumOf(vacancies, ApplicationsCounter)
  }

  predicate IsReviewing(a: Applicant) {
    a.app.status == Reviewing
  }

  /** Number of applicants under review, lookup misses on the student included. */
  function ReviewingCount(applicants: seq<Applicant>): (r: nat)
    ensures r <= |applicants|
    ensures r == 0 <==> forall j :: 0 <= j < |applicants| ==> applicants[j].app.status != Reviewing
    ensures r == |applicants| <==> forall j :: 0 <= j < |applicants| ==> applicants[j].app.status == Reviewing
  {
    |Filter(applicants, IsReviewing)|
  }

  /** The counter adds up over any split of the applicant list. With the
      one-applicant case fixed by the contract above (1 under review, else 0),
      this pins the value: one per applicant under review, whatever else it carries. */
  lemma ReviewingCountConcat(xs: seq<Applicant>, ys: seq<Applicant>)
    ensures ReviewingCount(xs + ys) == ReviewingCount(xs) + ReviewingCount(ys)
  {
    FilterConcat(xs, ys, IsReviewing);
  }

  datatype Stats = Stats(activeVacancies: nat, totalApplications: int, reviewing: nat)

  /** The three header counters: the company's vacancies, the sum of their
      display counters, and the applicants under review. */
  function HRStats(apps: seq<Application>, students: seq<Student>, vacancies: seq<Vacancy>, hr: HR): (r: Stats)
    ensures r.activeVacancies <= |vacancies|
    ensures r.activeVacancies == 0 <==> forall j :: 0 <= j < |vacancies| ==> vacancies[j].company.id != hr.company.id
    ensures (forall j :: 0 <= j < |vacancies| ==> vacancies[j].applications >= 0) ==> r.totalApplications >= 0
    ensures r.reviewing <= |apps|
    ensures r.activeVacancies == |CompanyVacancies(vacancies, hr)|
    ensures r.totalApplications == TotalApplications(CompanyVacancies(vacancies, hr))
    ensures r.reviewing == ReviewingCount(Applicants(apps, students, vacancies, hr))
  {
    var mine := CompanyVacancies(vacancies, hr);
    CountersStayNonNegative(vacancies, hr);
    Stats(|mine|, TotalApplications(mine), ReviewingCount(Applicants(apps, students, vacancies, hr)))
  }

  lemma CountersStayNonNegative(vacancies: seq<Vacancy>, hr: HR)
    ensures (forall j :: 0 <= j < |vacancies| ==> vacancies[j].applications >= 0) ==>
      forall j :: 0 <= j < |CompanyVacancies(vacancies, hr)| ==> CompanyVacancies(vacancies, hr)[j].applications >= 0
  {
  }

  /** The "total applications" counter reads only the company's vacancy
      counters: it is the same for any two application collections, and it
      adds up over a split of the vacancy list. */
  lemma TotalApplicationsIgnoresApplications(
    apps1: seq<Application>, apps2: seq<Application>, students: seq<Student>,
    xs: seq<Vacancy>, ys: seq<Vacancy>, hr: HR)
    ensures HRStats(apps1, students, xs + ys, hr).totalApplications == HRStats(apps2, students, xs + ys, hr).totalApplications
    ensures HRStats(apps1, students, xs + ys, hr).totalApplications
         == HRStats(apps1, students, xs, hr).totalApplications + HRStats(apps1, students, ys, hr).totalApplications
  {
    var mx, my := CompanyVacancies(xs, hr), CompanyVacancies(ys, hr);
    CompanyVacanciesConcat(xs, ys, hr);
    SumOfConcat(mx, my, ApplicationsCounter);
    assert TotalApplications(CompanyVacancies(xs + ys, hr)) == TotalApplications(mx) + TotalApplications(my);
  }

  /** With non-negative counters, the total is at least each vacancy's own counter. */
  lemma TotalApplicationsBound(vacancies: seq<Vacancy>, hr: HR, i: nat)
    requires forall j :: 0 <= j < |vacancies| ==> vacancies[j].applications >= 0
    requires i < |CompanyVacancies(vacancies, hr)|
    ensures TotalApplications(CompanyVacancies(vacancies, hr)) >= CompanyVacancies(vacancies, hr)[i].applications >= 0
  {
    var mine := CompanyVacancies(vacancies, hr);
    SumOfNonNegative(mine, ApplicationsCounter, i);
  }

  function ShownReviewing(a: Applicant): bool {
    Renders(a) && IsReviewing(a)
  }

  /** A student lookup miss stays in the applicant list and in the
      "reviewing" counter, yet no card is drawn for it: the counter then
      exceeds the number of reviewing cards on screen. */
  lemma StudentMissCountedNotRendered(
    apps: seq<Application>, students: seq<Student>, vacancies: seq<Vacancy>, hr: HR, k: nat)
    requires k < |apps|
    requires AppliesToCompany(vacancies, hr, apps[k])
    requires forall j :: 0 <= j < |students| ==> students[j].id != apps[k].studentId
    ensures Join(apps[k], students, vacancies) in Applicants(apps, students, vacancies, hr)
    ensures Card(Join(apps[k], students, vacancies)).None?
    ensures apps[k].status == Reviewing ==>
      ReviewingCount(Applicants(apps, students, vacancies, hr))
        > |Filter(Filter(Applicants(apps, students, vacancies, hr), Renders), IsReviewing)|
  {
    var r := Applicants(apps, students, vacancies, hr);
    var a := Join(apps[k], students, vacancies);
    assert a in r;
    if apps[k].status == Reviewing {
      var i :| 0 <= i < |r| && r[i] == a;
      FilterFilter(r, Renders, IsReviewing, ShownReviewing);
      FilterStrictlySmaller(r, IsReviewing, ShownReviewing, i);
    }
  }

  /** In a fixture whose foreign keys all resolve, no applicant is skipped:
      every applicant gets a card. */
  lemma ResolvedApplicantsAllRender(apps: seq<Application>, students: seq<Student>, vacancies: seq<Vacancy>, hr: HR)
    requires forall i :: 0 <= i < |apps| ==> ApplicationResolves(apps[i], students, vacancies)
    ensures |ApplicationCards(Applicants(apps, students, vacancies, hr))| == |Applicants(apps, students, vacancies, hr)|
  {
    var r := Applicants(apps, students, vacancies, hr);
    forall j | 0 <= j < |r|
      ensures Renders(r[j])
    {
      var app := r[j].app;
      assert r[j] == Join(app, students, vacancies);
      assert AppliesToCompany(vacancies, hr, app);
      assert ApplicationResolves(app, students, vacancies);
      ResolvedStudentFound(students, app.studentId);
    }
    assert |Filter(r, Renders)| == |r|;
  }

  lemma ResolvedStudentFound(students: seq<Student>, id: string)
    requires HasKey(students, (s: Student) => s.id, id)
    ensures StudentById(students, id).Some?
  {
    var w :| 0 <= w < |students| && students[w].id == id;
  }

  // ---------------------------------------------------------------------------
  // Candidate bank: the level filter

  /** The select's value: `"all"` or a level. */
  datatype LevelFilter = All | Level(n: int)

  /** The options the select offers; level 1 is not among them. */
  const FilterOptions: seq<LevelFilter> := [All, Level(2), Level(3), Level(4), Level(5)]

  function AtLevel(n: int): Student -> bool {
    (s: Student) => s.level == n
  }

  function FilteredStudents(students: seq<Student>, filter: LevelFilter): (r: seq<Student>)
    ensures filter.All? ==> r == students
    ensures filter.Level? ==> forall j :: 0 <= j < |r| ==> r[j] in students && r[j].level == filter.n
    ensures filter.Level? ==> forall j :: 0 <= j < |students| && students[j].level == filter.n ==> students[j] in r
    ensures Subsequence(r, students)
  {
    match filter
    case All =>
      SubsequenceRefl(students);
      students
    case Level(n) => Filter(students, AtLevel(n))
  }

  /** A level-1 student is listed only under "all": every offered level option hides them. */
  lemma LevelOneOnlyUnderAll(students: seq<Student>, k: nat, i: nat)
    requires k < |FilterOptions| && i < |students| && students[i].level == 1
    ensures students[i] in FilteredStudents(students, FilterOptions[k]) <==> FilterOptions[k] == All
  {
    if k > 0 {
      var n := FilterOptions[k].n;
      assert n != 1;
      assert students[i] !in Filter(students, AtLevel(n));
    }
  }

  /** A student of level 2..5 is listed under exactly one level option. */
  lemma LevelOptionsPartition(students: seq<Student>, i: nat, k: nat)
    requires i < |students| && 2 <= students[i].level <= 5
    requires 1 <= k < |FilterOptions|
    ensures students[i] in FilteredStudents(students, FilterOptions[k]) <==> FilterOptions[k] == Level(students[i].level)
  {
  }

  // ---------------------------------------------------------------------------
  // Dashboard-local state

  datatype Tab = VacanciesTab | CandidatesTab | ApplicationsTab

  datatype State = State(tab: Tab, filter: LevelFilter)

  /** Fresh on every mount. */
  const Initial: State := State(VacanciesTab, All)

  /** `setSelectedTab`: the chosen tab, the level filter kept. */
  function SelectTab(s: State, t: Tab): (r: State)
    ensures r.tab == t && r.filter == s.filter
  {
    s.(tab := t)
  }

  /** `setFilterLevel`: the chosen filter, the tab kept. */
  function SetFilter(s: State, f: LevelFilter): (r: State)
    ensures r.filter == f && r.tab == s.tab
  {
    s.(filter := f)
  }

  /** The list the visible tab shows. */
  datatype Panel =
    | VacancyList(vacancies: seq<Vacancy>)
    | CandidateList(students: seq<Student>)
    | ApplicationList(cards: seq<ApplicationCard>)

  function ShownPanel(s: State, apps: seq<Application>, students: seq<Student>, vacancies: seq<Vacancy>, hr: HR): (r: Panel)
    ensures r.VacancyList? <==> s.tab == VacanciesTab
    ensures r.CandidateList? <==> s.tab == CandidatesTab
    ensures r.ApplicationList? <==> s.tab == ApplicationsTab
    ensures s.tab == VacanciesTab ==> r.vacancies == CompanyVacancies(vacancies, hr)
    ensures s.tab == CandidatesTab ==> r.students == FilteredStudents(students, s.filter)
    ensures s.tab == ApplicationsTab ==> r.cards == ApplicationCards(Applicants(apps, students, vacancies, hr))
  {
    match s.tab
    case VacanciesTab => VacancyList(CompanyVacancies(vacancies, hr))
    case CandidatesTab => CandidateList(FilteredStudents(students, s.filter))
    case ApplicationsTab => ApplicationList(ApplicationCards(Applicants(apps, students, vacancies, hr)))
  }

  /** The dashboard opens on the company's vacancies, and the candidate bank
      starts unfiltered. */
  lemma InitialView(apps: seq<Application>, students: seq<Student>, vacancies: seq<Vacancy>, hr: HR)
    ensures ShownPanel(Initial, apps, students, vacancies, hr) == VacancyList(CompanyVacancies(vacancies, hr))
    ensures ShownPanel(SelectTab(Initial, CandidatesTab), apps, students, vacancies, hr) == CandidateList(students)
  {
  }

  /** The level filter affects only the candidate tab, and survives tab switches. */
  lemma FilterOnlyAffectsCandidates(s: State, f: LevelFilter, t: Tab,
    apps: seq<Application>, students: seq<Student>, vacancies: seq<Vacancy>, hr: HR)
    ensures s.tab != CandidatesTab ==>
      ShownPanel(SetFilter(s, f), apps, students, vacancies, hr) == ShownPanel(s, apps, students, vacancies, hr)
    ensures ShownPanel(SelectTab(SelectTab(SetFilter(s, f), t), CandidatesTab), apps, students, vacancies, hr)
         == CandidateList(FilteredStudents(students, f))
  {
  }

  /** The header counters agree with the vacancies tab, whatever tab and
      filter are selected: the active-vacancy counter is the length of its
      list, and the total is the sum of that list's counters. */
  lemma StatsMatchPanels(s: State, apps: seq<Application>, students: seq<Student>, vacancies: seq<Vacancy>, hr: HR)
    ensures HRStats(apps, students, vacancies, hr).activeVacancies
         == |ShownPanel(s.(tab := VacanciesTab), apps, students, vacancies, hr).vacancies|
    ensures HRStats(apps, students, vacancies, hr).totalApplications
         == TotalApplications(ShownPanel(s.(tab := VacanciesTab), apps, students, vacancies, hr).vacancies)
  {
  }

  // ---------------------------------------------------------------------------
  // The seed, as the one recruiter sees it

  lemma SeedCompanyVacancies()
    ensures CompanyVacancies(Vacancies, HRs[0]) == [Vacancies[0]]
  {
    var hr := HRs[0];
    assert Vacancies == [Vacancies[0]] + ([Vacancies[1]] + [Vacancies[2]]);
    CompanyVacanciesConcat([Vacancies[1]], [Vacancies[2]], hr);
    CompanyVacanciesConcat([Vacancies[0]], [Vacancies[1]] + [Vacancies[2]], hr);
  }

  lemma SeedJoins()
    ensures Join(MockData.Applications[0], Students, Vacancies) == Applicant(MockData.Applications[0], Some(Students[0]), Some(Vacancies[0]))
    ensures Join(MockData.Applications[1], Students, Vacancies) == Applicant(MockData.Applications[1], Some(Students[1]), Some(Vacancies[1]))
  {
    SeedIdsUnique();
    SeedApplicationsResolve();
    VacancyByUniqueId(Vacancies, 0);
    VacancyByUniqueId(Vacancies, 1);
    StudentByUniqueId(Students, 0);
    StudentByUniqueId(Students, 1);
  }

  lemma ApplicantsOfTwo(a0: Application, a1: Application, students: seq<Student>, vacancies: seq<Vacancy>, hr: HR)
    requires ForCompany(hr, Join(a0, students, vacancies)) && !ForCompany(hr, Join(a1, students, vacancies))
    ensures Applicants([a0, a1], students, vacancies, hr) == [Join(a0, students, vacancies)]
  {
    var joined := Map([a0, a1], JoinWith(students, vacancies));
    assert joined == [joined[0]] + [joined[1]];
    FilterConcat([joined[0]], [joined[1]], ApplicantsWhere(hr));
  }

  lemma SeedApplicants()
    ensures Applicants(MockData.Applications, Students, Vacancies, HRs[0])
         == [Applicant(MockData.Applications[0], Some(Students[0]), Some(Vacancies[0]))]
  {
    SeedJoins();
    var a0 := MockData.Applications[0];
    var a1 := MockData.Applications[1];
    assert Join(a0, Students, Vacancies).vacancy == Some(Vacancies[0]);
    assert Join(a1, Students, Vacancies).vacancy == Some(Vacancies[1]);
    assert Vacancies[0].company.id == HRs[0].company.id != Vacancies[1].company.id;
    ApplicantsOfTwo(a0, a1, Students, Vacancies, HRs[0]);
  }

  lemma StatsOf(apps: seq<Application>, students: seq<Student>, vacancies: seq<Vacancy>, hr: HR, v: Vacancy, a: Applicant)
    requires CompanyVacancies(vacancies, hr) == [v]
    requires Applicants(apps, students, vacancies, hr) == [a]
    ensures HRStats(apps, students, vacancies, hr) == Stats(1, v.applications, if IsReviewing(a) then 1 else 0)
  {
    assert SumOf([v], ApplicationsCounter) == v.applications by {
      assert [v][..0] == [];
    }
  }

  /** On the seed the recruiter sees one vacancy, a "total applications"
      counter of 12 taken from that vacancy's display counter, and one
      application under review: the counter and the application records
      disagree, and nothing reconciles them. */
  lemma SeedStats()
    ensures HRStats(MockData.Applications, Students, Vacancies, HRs[0]) == Stats(1, 12, 1)
  {
    SeedCompanyVacancies();
    SeedApplicants();
    StatsOf(MockData.Applications, Students, Vacancies, HRs[0], Vacancies[0],
      Applicant(MockData.Applications[0], Some(Students[0]), Some(Vacancies[0])));
  }
}

=== FILE: mock_data.dfy ===
/**
  The fixture store of Kontur.Start: the record types of the platform and the
  hard-coded seed collections every dashboard reads. Nothing here is ever
  mutated; the invariants the seed author relied on (levels 1..5, unique ids,
  foreign keys that resolve, scores not above their maximum) are stated as
  predicates and proved of the seed.
 */
module MockData {
  import opened Seqs

  datatype Company = Company(id: string, name: string, description: string)

  /** One completed attempt at a catalogue test; `testId` refers to a `Test`. */
  datatype TestResult = TestResult(
    id: string,
    testId: string,
    testName: string,
    skillArea: string,
    score: int,
    maxScore: int,
    level: int,
    passed: bool,
    feedback: Option<string>)

  datatype Student = Student(
    id: string,
    name: string,
    email: string,
    skills: seq<string>,
    level: int,
    tests: seq<TestResult>,
    bio: Option<string>,
    portfolio: Option<string>)

  /** A recruiter; the company is embedded by value, not referenced by id. */
  datatype HR = HR(id: string, name: string, email: string, company: Company)

  /** `applications` is a display counter kept independently of the Application records. */
  datatype Vacancy = Vacancy(
    id: string,
    title: string,
    company: Company,
    description: string,
    requirements: seq<string>,
    requiredLevel: int,
    skillArea: string,
    applications: int)

  /** The five application states; the type admits no other value. */
  datatype Status = Pending | Reviewing | Interview | Rejected | Accepted

  datatype Application = Application(id: string, vacancyId: string, studentId: string, status: Status)

  /** A catalogue entry; `duration` is in minutes. */
  datatype Test = Test(
    id: string,
    name: string,
    skillArea: string,
    level: int,
    duration: int,
    description: string,
    questions: int)

  // ---------------------------------------------------------------------------
  // Seed collections

  const Companies: seq<Company> := [
    Company("1", "СКБ Контур", "Разрабатываем облачные сервисы для бизнеса"),
    Company("2", "Яндекс", "Интернет-компания"),
    Company("3", "VK", "Социальные сети и технологии")
  ]

  const Students: seq<Student> := [
    Student("s1", "Анна Иванова", "anna@example.com",
      ["React", "TypeScript", "Node.js"], 3,
      [TestResult("t1", "test1", "Frontend базовый", "Frontend Development", 85, 100, 3, true,
         Some("Отличное знание React и TypeScript"))],
      Some("Фронтенд-разработчик, 3 курс МГУ"), None),
    Student("s2", "Дмитрий Петров", "dmitry@example.com",
      ["Python", "Django", "PostgreSQL"], 4,
      [TestResult("t2", "test2", "Backend продвинутый", "Backend Development", 92, 100, 4, true,
         Some("Превосходное владение Python и базами данных"))],
      Some("Backend-разработчик, 4 курс СПбГУ"), None)
  ]

  const HRs: seq<HR> := [
    HR("hr1", "Елена Смирнова", "elena@skbkontur.ru", Companies[0])
  ]

  const Vacancies: seq<Vacancy> := [
    Vacancy("v1", "Стажёр Frontend-разработчик", Companies[0],
      "Ищем талантливого студента для работы над веб-приложениями",
      ["React", "TypeScript", "Git"], 3, "Frontend Development", 12),
    Vacancy("v2", "Стажёр Backend-разработчик", Companies[1],
      "Разработка серверной части высоконагруженных систем",
      ["Python", "Django", "SQL"], 4, "Backend Development", 8),
    Vacancy("v3", "Стажёр Data Analyst", Companies[2],
      "Анализ данных и построение моделей",
      ["Python", "Pandas", "SQL"], 2, "Data Science", 15)
  ]

  const Applications: seq<Application> := [
    Application("a1", "v1", "s1", Reviewing),
    Application("a2", "v2", "s2", Interview)
  ]

  const Tests: seq<Test> := [
    Test("test1", "Frontend базовый", "Frontend Development", 3, 60,
      "Тестирование знаний React, TypeScript, HTML/CSS", 25),
    Test("test2", "Backend продвинутый", "Backend Development", 4, 90,
      "Тестирование знаний Python, Django, PostgreSQL, архитектуры", 30),
    Test("test3", "Data Science начальный", "Data Science", 2, 45,
      "Основы Python, Pandas, визуализация данных", 20)
  ]

  // ---------------------------------------------------------------------------
  // Invariants the seed is written to satisfy (nothing enforces them at run time)

  predicate ValidLevel(level: int) {
    1 <= level <= 5
  }

  /** No two entries of `xs` share a key. */
  predicate UniqueBy<T>(xs: seq<T>, key: T -> string) {
    forall i, j :: 0 <= i < j < |xs| ==> key(xs[i]) != key(xs[j])
  }

  /** Some entry of `xs` has key `id`: a foreign key that resolves. */
  predicate HasKey<T>(xs: seq<T>, key: T -> string, id: string) {
    exists i :: 0 <= i < |xs| && key(xs[i]) == id
  }

  predicate ResultWellFormed(t: TestResult, tests: seq<Test>) {
    && ValidLevel(t.level)
    && 0 <= t.score <= t.maxScore
    && 0 < t.maxScore
    && HasKey(tests, (c: Test) => c.id, t.testId)
  }

  predicate StudentWellFormed(s: Student, tests: seq<Test>) {
    && ValidLevel(s.level)
    && (forall k :: 0 <= k < |s.tests| ==> ResultWellFormed(s.tests[k], tests))
  }

  predicate ApplicationResolves(a: Application, students: seq<Student>, vacancies: seq<Vacancy>) {
    && HasKey(vacancies, (v: Vacancy) => v.id, a.vacancyId)
    && HasKey(students, (s: Student) => s.id, a.studentId)
  }

  /** The whole fixture invariant. */
  predicate FixtureWellFormed(
    companies: seq<Company>, students: seq<Student>, vacancies: seq<Vacancy>,
    applications: seq<Application>, tests: seq<Test>)
  {
    && UniqueBy(companies, (c: Company) => c.id)
    && UniqueBy(students, (s: Student) => s.id)
    && UniqueBy(vacancies, (v: Vacancy) => v.id)
    && UniqueBy(applications, (a: Application) => a.id)
    && UniqueBy(tests, (t: Test) => t.id)
    && (forall i :: 0 <= i < |students| ==> StudentWellFormed(students[i], tests))
    && (forall i :: 0 <= i < |vacancies| ==> ValidLevel(vacancies[i].requiredLevel))
    && (forall i :: 0 <= i < |vacancies| ==> vacancies[i].company in companies)
    && (forall i :: 0 <= i < |applications| ==> ApplicationResolves(applications[i], students, vacancies))
  }

  // ---------------------------------------------------------------------------
  // The seed satisfies them

  lemma SeedStudentsWellFormed()
    ensures forall i :: 0 <= i < |Students| ==> StudentWellFormed(Students[i], Tests)
  {
    assert Tests[0].id == Students[0].tests[0].testId;
    assert Tests[1].id == Students[1].tests[0].testId;
  }

  lemma SeedApplicationsResolve()
    ensures forall i :: 0 <= i < |Applications| ==> ApplicationResolves(Applications[i], Students, Vacancies)
    ensures Applications[0].vacancyId == Vacancies[0].id && Applications[0].studentId == Students[0].id
    ensures Applications[1].vacancyId == Vacancies[1].id && Applications[1].studentId == Students[1].id
  {
    assert Vacancies[0].id == Applications[0].vacancyId && Students[0].id == Applications[0].studentId;
    assert Vacancies[1].id == Applications[1].vacancyId && Students[1].id == Applications[1].studentId;
  }

  lemma SeedIdsUnique()
    ensures UniqueBy(Companies, (c: Company) => c.id)
    ensures UniqueBy(Students, (s: Student) => s.id)
    ensures UniqueBy(Vacancies, (v: Vacancy) => v.id)
    ensures UniqueBy(Applications, (a: Application) => a.id)
    ensures UniqueBy(Tests, (t: Test) => t.id)
  {
    DistinctIds(Companies, (c: Company) => c.id, ["1", "2", "3"]);
    DistinctIds(Students, (s: Student) => s.id, ["s1", "s2"]);
    DistinctIds(Vacancies, (v: Vacancy) => v.id, ["v1", "v2", "v3"]);
    DistinctIds(Applications, (a: Application) => a.id, ["a1", "a2"]);
    DistinctIds(Tests, (t: Test) => t.id, ["test1", "test2", "test3"]);
  }

  /** Keys read off position by position from a list of pairwise distinct ids are unique. */
  lemma DistinctIds<T>(xs: seq<T>, key: T -> string, ids: seq<string>)
    requires |xs| == |ids|
    requires forall i :: 0 <= i < |xs| ==> key(xs[i]) == ids[i]
    requires forall i, j :: 0 <= i < j < |ids| ==> ids[i] != ids[j]
    ensures UniqueBy(xs, key)
  {
  }

  lemma SeedVacanciesWellFormed()
    ensures forall i :: 0 <= i < |Vacancies| ==> ValidLevel(Vacancies[i].requiredLevel)
    ensures forall i :: 0 <= i < |Vacancies| ==> Vacancies[i].company in Companies
  {
  }

  lemma SeedWellFormed()
    ensures FixtureWellFormed(Companies, Students, Vacancies, Applications, Tests)
  {
    SeedIdsUnique();
    SeedStudentsWellFormed();
    SeedVacanciesWellFormed();
    SeedApplicationsResolve();
  }

  /** The one recruiter works for company "1", which posts v1 and nothing else. */
  lemma SeedHRCompany()
    ensures HRs[0].company == Companies[0] && HRs[0].company.id == "1"
    ensures forall i :: 0 <= i < |Vacancies| ==> (Vacancies[i].company.id == HRs[0].company.id <==> i == 0)
  {
  }
}

=== FILE: seqs.dfy ===
/**
  The array operations the dashboards are built from, as pure functions on
  sequences: JavaScript's `Array.prototype.find`, `filter`, `some` and a
  numeric `reduce`, each with a contract that pins down its meaning.
 */
module Seqs {

  /** `undefined` versus a found value: the result of `find`. */
  datatype Option<+T> = None | Some(value: T)

  /** `a` can be obtained from `b` by deleting elements: `a` keeps `b`'s order. */
  ghost predicate Subsequence<T>(a: seq<T>, b: seq<T>)
    decreases |b|
  {
    if |a| == 0 then true
    else if |b| == 0 then false
    else (a[0] == b[0] && Subsequence(a[1..], b[1..])) || Subsequence(a, b[1..])
  }

  /** Index of the FIRST element satisfying `p`, scanning left to right. */
  function FindIndex<T>(xs: seq<T>, p: T -> bool): (r: Option<nat>)
    ensures r.Some? ==> r.value < |xs| && p(xs[r.value])
    ensures r.Some? ==> forall j :: 0 <= j < r.value ==> !p(xs[j])
    ensures r.None? <==> forall j :: 0 <= j < |xs| ==> !p(xs[j])
  {
    if |xs| == 0 then None
    else if p(xs[0]) then Some(0)
    else
      match FindIndex(xs[1..], p)
      case None => None
      case Some(k) => Some(k + 1)
  }

  /** `xs.find(p)`: the first element satisfying `p`, or `None` (JavaScript's `undefined`). */
  function Find<T>(xs: seq<T>, p: T -> bool): (r: Option<T>)
    ensures r.None? <==> forall j :: 0 <= j < |xs| ==> !p(xs[j])
    ensures r.Some? ==> exists i :: 0 <= i < |xs| && xs[i] == r.value && p(xs[i]) && forall j :: 0 <= j < i ==> !p(xs[j])
  {
    match FindIndex(xs, p)
    case None => None
    case Some(i) => Some(xs[i])
  }

  /** When exactly one position satisfies `p`, `find` returns the element there. */
  lemma FindUnique<T>(xs: seq<T>, p: T -> bool, i: nat)
    requires i < |xs| && p(xs[i])
    requires forall j :: 0 <= j < |xs| && j != i ==> !p(xs[j])
    ensures Find(xs, p) == Some(xs[i])
  {
    var k := FindIndex(xs, p);
    assert k.Some?;
    assert k.value == i;
  }

  /** `xs.filter(p)`: the elements satisfying `p`, in their original order. */
  function Filter<T>(xs: seq<T>, p: T -> bool): (r: seq<T>)
    ensures forall j :: 0 <= j < |r| ==> r[j] in xs && p(r[j])
    ensures forall j :: 0 <= j < |xs| && p(xs[j]) ==> xs[j] in r
    ensures Subsequence(r, xs)
    ensures |r| <= |xs|
    ensures |r| == |xs| <==> forall j :: 0 <= j < |xs| ==> p(xs[j])
    ensures |r| == 0 <==> forall j :: 0 <= j < |xs| ==> !p(xs[j])
  {
    if |xs| == 0 then []
    else
      var rest := Filter(xs[1..], p);
      assert forall j :: 1 <= j < |xs| ==> xs[j] == xs[1..][j - 1];
      if p(xs[0]) then
        SubsequenceKeep(xs[0], rest, xs[1..]);
        assert xs == [xs[0]] + xs[1..];
        [xs[0]] + rest
      else
        SubsequenceSkip(rest, xs[0], xs[1..]);
        assert xs == [xs[0]] + xs[1..];
        rest
  }

  lemma SubsequenceKeep<T>(x: T, a: seq<T>, b: seq<T>)
    requires Subsequence(a, b)
    ensures Subsequence([x] + a, [x] + b)
  {
    assert ([x] + a)[1..] == a && ([x] + b)[1..] == b;
  }

  lemma SubsequenceSkip<T>(a: seq<T>, x: T, b: seq<T>)
    requires Subsequence(a, b)
    ensures Subsequence(a, [x] + b)
  {
    assert ([x] + b)[1..] == b;
  }

  /** One unfolding of `Filter`, as a fact callers can cite. */
  lemma FilterCons<T>(xs: seq<T>, p: T -> bool)
    requires |xs| > 0
    ensures Filter(xs, p) == if p(xs[0]) then [xs[0]] + Filter(xs[1..], p) else Filter(xs[1..], p)
  {
  }

  /** Filtering distributes over concatenation: the filter neither reorders
      nor mixes the two halves of its input. */
  lemma {:induction false} FilterConcat<T>(xs: seq<T>, ys: seq<T>, p: T -> bool)
    ensures Filter(xs + ys, p) == Filter(xs, p) + Filter(ys, p)
  {
    if |xs| == 0 {
      assert xs + ys == ys;
    } else {
      assert (xs + ys)[1..] == xs[1..] + ys;
      FilterConcat(xs[1..], ys, p);
    }
  }

  lemma {:induction false} SubsequenceRefl<T>(xs: seq<T>)
    ensures Subsequence(xs, xs)
  {
    if |xs| > 0 {
      SubsequenceRefl(xs[1..]);
    }
  }

  /** Two filters in a row are one filter by the conjunction. */
  lemma {:induction false} FilterFilter<T>(xs: seq<T>, p: T -> bool, q: T -> bool, pq: T -> bool)
    requires forall j :: 0 <= j < |xs| ==> (pq(xs[j]) <==> p(xs[j]) && q(xs[j]))
    ensures Filter(Filter(xs, p), q) == Filter(xs, pq)
  {
    if |xs| > 0 {
      assert forall j :: 1 <= j < |xs| ==> xs[j] == xs[1..][j - 1];
      FilterFilter(xs[1..], p, q, pq);
      if p(xs[0]) {
        assert ([xs[0]] + Filter(xs[1..], p))[1..] == Filter(xs[1..], p);
      }
    }
  }

  /** Strengthening the predicate drops at least one element when some
      element passes the weaker predicate but not the stronger one. */
  lemma {:induction false} FilterStrictlySmaller<T>(xs: seq<T>, p: T -> bool, q: T -> bool, k: nat)
    requires forall j :: 0 <= j < |xs| && q(xs[j]) ==> p(xs[j])
    requires k < |xs| && p(xs[k]) && !q(xs[k])
    ensures |Filter(xs, q)| < |Filter(xs, p)|
  {
    assert forall j :: 1 <= j < |xs| ==> xs[j] == xs[1..][j - 1];
    if k == 0 {
      FilterWeaker(xs[1..], q, p);
    } else {
      FilterStrictlySmaller(xs[1..], p, q, k - 1);
    }
  }

  /** A filter whose predicate is weaker on the elements of `xs` keeps at least as much. */
  lemma {:induction false} FilterWeaker<T>(xs: seq<T>, p: T -> bool, q: T -> bool)
    requires forall j :: 0 <= j < |xs| && p(xs[j]) ==> q(xs[j])
    ensures |Filter(xs, p)| <= |Filter(xs, q)|
  {
    if |xs| > 0 {
      assert forall j :: 1 <= j < |xs| ==> xs[j] == xs[1..][j - 1];
      FilterWeaker(xs[1..], p, q);
    }
  }

  /** Joining each element (`f`), filtering the joined records (`p`) and
      projecting back (`g`) is a filter of the original sequence. */
  lemma {:induction false} FilterMapProject<T, U>(xs: seq<T>, f: T -> U, g: U -> T, p: U -> bool, q: T -> bool)
    requires forall j :: 0 <= j < |xs| ==> g(f(xs[j])) == xs[j]
    requires forall j :: 0 <= j < |xs| ==> (q(xs[j]) <==> p(f(xs[j])))
    ensures Map(Filter(Map(xs, f), p), g) == Filter(xs, q)
  {
    if |xs| > 0 {
      var tail := xs[1..];
      assert forall j :: 0 <= j < |tail| ==> tail[j] == xs[j + 1];
      FilterMapProject(tail, f, g, p, q);
      var ys := Map(xs, f);
      MapTail(xs, f);
      assert ys[1..] == Map(tail, f);
      var rest := Filter(Map(tail, f), p);
      if p(f(xs[0])) {
        assert Filter(ys, p) == [ys[0]] + rest;
        MapCons(ys[0], rest, g);
      } else {
        assert Filter(ys, p) == rest;
      }
    }
  }

  lemma MapTail<T, U>(xs: seq<T>, f: T -> U)
    requires |xs| > 0
    ensures Map(xs, f)[1..] == Map(xs[1..], f)
    ensures Map(xs, f)[0] == f(xs[0])
  {
  }

  lemma MapCons<T, U>(x: T, xs: seq<T>, f: T -> U)
    ensures Map([x] + xs, f) == [f(x)] + Map(xs, f)
  {
    var l := Map([x] + xs, f);
    var r := [f(x)] + Map(xs, f);
    assert |l| == |r|;
    forall j | 0 <= j < |l|
      ensures l[j] == r[j]
    {
      if j > 0 {
        assert ([x] + xs)[j] == xs[j - 1];
      }
    }
  }

  /** `xs.some(p)`. */
  function Any<T>(xs: seq<T>, p: T -> bool): (r: bool)
    ensures r <==> exists j :: 0 <= j < |xs| && p(xs[j])
  {
    if |xs| == 0 then false
    else
      assert forall j :: 1 <= j < |xs| ==> xs[j] == xs[1..][j - 1];
      p(xs[0]) || Any(xs[1..], p)
  }

  /** `xs.map(f)`. */
  function Map<T, U>(xs: seq<T>, f: T -> U): (r: seq<U>)
    ensures |r| == |xs|
    ensures forall j :: 0 <= j < |xs| ==> r[j] == f(xs[j])
  {
    seq(|xs|, j requires 0 <= j < |xs| => f(xs[j]))
  }

  /** `xs.reduce((sum, x) => sum + f(x), 0)`: a left fold, so the last element is added last. */
  function SumOf<T>(xs: seq<T>, f: T -> int): (r: int)
    ensures (forall j :: 0 <= j < |xs| ==> f(xs[j]) >= 0) ==> r >= 0
    ensures (forall j :: 0 <= j < |xs| ==> f(xs[j]) == 0) ==> r == 0
    ensures |xs| == 1 ==> r == f(xs[0])
  {
    if |xs| == 0 then 0 else SumOf(xs[..|xs| - 1], f) + f(xs[|xs| - 1])
  }

  /** The sum over a concatenation is the sum of the sums. */
  lemma {:induction false} SumOfConcat<T>(xs: seq<T>, ys: seq<T>, f: T -> int)
    ensures SumOf(xs + ys, f) == SumOf(xs, f) + SumOf(ys, f)
    decreases |ys|
  {
    if |ys| == 0 {
      assert xs + ys == xs;
    } else {
      assert (xs + ys)[..|xs + ys| - 1] == xs + ys[..|ys| - 1];
      SumOfConcat(xs, ys[..|ys| - 1], f);
    }
  }

  /** A sum of non-negative terms is non-negative and at least any one of them. */
  lemma {:induction false} SumOfNonNegative<T>(xs: seq<T>, f: T -> int, i: nat)
    requires forall j :: 0 <= j < |xs| ==> f(xs[j]) >= 0
    requires i < |xs|
    ensures SumOf(xs, f) >= f(xs[i]) >= 0
  {
    var n := |xs| - 1;
    assert forall j :: 0 <= j < n ==> xs[..n][j] == xs[j];
    if i < n {
      SumOfNonNegative(xs[..n], f, i);
    }
  }
}

=== FILE: student_dashboard.dfy ===
/**
  What the student's dashboard derives from the student record and the
  fixture store: the vacancies open to the student's level, which catalogue
  tests show as completed, the header counters (tests taken, vacancies
  available, average score) and the dashboard's own tab state.

  Percentages are computed over exact reals: the model has no
  floating-point rounding drift.
 */
module StudentDashboard {
  import opened Seqs
  import opened MockData

  // ---------------------------------------------------------------------------
  // Vacancies open to the student

  function OpenTo(level: int): Vacancy -> bool {
    (v: Vacancy) => v.requiredLevel <= level
  }

  /** Vacancies whose required level does not exceed the student's, equality included, in fixture order. */
  function AvailableVacancies(vacancies: seq<Vacancy>, student: Student): (r: seq<Vacancy>)
    ensures forall j :: 0 <= j < |r| ==> r[j] in vacancies && r[j].requiredLevel <= student.level
    ensures forall j :: 0 <= j < |vacancies| && vacancies[j].requiredLevel <= student.level ==> vacancies[j] in r
    ensures Subsequence(r, vacancies)
  {
    Filter(vacancies, OpenTo(student.level))
  }

  /** Raising the level never hides a vacancy: what a lower-level student
      sees is exactly the higher-level student's list, filtered again, so it
      is an order-preserving part of it. */
  lemma AvailableMonotone(vacancies: seq<Vacancy>, lower: Student, higher: Student)
    requires lower.level <= higher.level
    ensures AvailableVacancies(AvailableVacancies(vacancies, higher), lower) == AvailableVacancies(vacancies, lower)
    ensures Subsequence(AvailableVacancies(vacancies, lower), AvailableVacancies(vacancies, higher))
    ensures |AvailableVacancies(vacancies, lower)| <= |AvailableVacancies(vacancies, higher)|
  {
    FilterFilter(vacancies, OpenTo(higher.level), OpenTo(lower.level), OpenTo(lower.level));
  }

  // ---------------------------------------------------------------------------
  // Catalogue tests: completed or not

  function ForTest(test: Test): TestResult -> bool {
    (t: TestResult) => t.testId == test.id
  }

  /** `student.tests.some(t => t.testId === test.id)`. */
  function Completed(student: Student, test: Test): (r: bool)
    ensures r <==> exists k :: 0 <= k < |student.tests| && student.tests[k].testId == test.id
  {
    Any(student.tests, ForTest(test))
  }

  datatype BadgeVariant = DefaultBadge | OutlineBadge

  /** The card's corner: a "completed" badge or a "start test" button, never both. */
  datatype TestAction = CompletedBadge | StartButton

  datatype TestCard = TestCard(testId: string, name: string, level: int, levelBadge: BadgeVariant, action: TestAction)

  /** The card drawn for one catalogue test; the level badge and the corner
      action are decided by the same existence check. */
  function TestCardFor(student: Student, test: Test): (r: TestCard)
    ensures r.testId == test.id
    ensures r.action == CompletedBadge <==> exists k :: 0 <= k < |student.tests| && student.tests[k].testId == test.id
    ensures r.action == StartButton <==> forall k :: 0 <= k < |student.tests| ==> student.tests[k].testId != test.id
    ensures r.levelBadge == DefaultBadge <==> r.action == CompletedBadge
  {
    var done := Completed(student, test);
    TestCard(test.id, test.name, test.level,
      if done then DefaultBadge else OutlineBadge,
      if done then CompletedBadge else StartButton)
  }

  function CardFor(student: Student): Test -> TestCard {
    (test: Test) => TestCardFor(student, test)
  }

  /** One card per catalogue test, in catalogue order. */
  function TestCards(student: Student, catalogue: seq<Test>): (r: seq<TestCard>)
    ensures |r| == |catalogue|
    ensures forall j :: 0 <= j < |r| ==> r[j].testId == catalogue[j].id
    ensures forall j :: 0 <= j < |r| ==>
      (r[j].action == CompletedBadge <==> exists k :: 0 <= k < |student.tests| && student.tests[k].testId == catalogue[j].id)
  {
    Map(catalogue, CardFor(student))
  }

  // ---------------------------------------------------------------------------
  // Average score

  /** `score / maxScore * 100` over exact reals; undefined when `maxScore` is 0. */
  function Percent(t: TestResult): (r: real)
    requires t.maxScore != 0
    ensures r * t.maxScore as real == 100.0 * t.score as real
  {
    (t.score as real / t.maxScore as real) * 100.0
  }

  predicate Finite(ts: seq<TestResult>) {
    forall k :: 0 <= k < |ts| ==> ts[k].maxScore != 0
  }

  /** `reduce((acc, t) => acc + percent(t), 0)`: a left fold. */
  function PercentSum(ts: seq<TestResult>): (r: real)
    requires Finite(ts)
    ensures |ts| == 0 ==> r == 0.0
    ensures |ts| == 1 ==> r == Percent(ts[0])
  {
    if |ts| == 0 then 0.0 else PercentSum(ts[..|ts| - 1]) + Percent(ts[|ts| - 1])
  }

  /** The fold adds up over any split of the results, so it is the sum of
      the percentages whatever the order of folding. */
  lemma {:induction false} PercentSumConcat(xs: seq<TestResult>, ys: seq<TestResult>)
    requires Finite(xs) && Finite(ys)
    ensures Finite(xs + ys)
    ensures PercentSum(xs + ys) == PercentSum(xs) + PercentSum(ys)
    decreases |ys|
  {
    if |ys| == 0 {
      assert xs + ys == xs;
    } else {
      var init := ys[..|ys| - 1];
      assert forall k :: 0 <= k < |init| ==> init[k] == ys[k];
      assert (xs + ys)[..|xs + ys| - 1] == xs + init;
      PercentSumConcat(xs, init);
    }
  }

  /** `Math.round`: the nearest integer, halves rounded up. */
  function Round(x: real): (r: int)
    ensures r as real - 0.5 <= x < r as real + 0.5
  {
    (x + 0.5).Floor
  }

  /** The average-score counter. An empty result list shows 0. A result with
      `maxScore` 0 makes the JavaScript expression NaN or Infinity; that
      non-number is `None`. */
  function AverageScore(ts: seq<TestResult>): (r: Option<int>)
    ensures |ts| == 0 ==> r == Some(0)
    ensures r.None? <==> exists k :: 0 <= k < |ts| && ts[k].maxScore == 0
    ensures r.Some? && |ts| > 0 ==>
      r.value as real - 0.5 <= PercentSum(ts) / |ts| as real < r.value as real + 0.5
  {
    if |ts| == 0 then Some(0)
    else if !Finite(ts) then None
    else Some(Round(PercentSum(ts) / |ts| as real))
  }

  predicate ScoreInRange(t: TestResult) {
    0 < t.maxScore && 0 <= t.score <= t.maxScore
  }

  lemma PercentInRange(t: TestResult)
    requires ScoreInRange(t)
    ensures 0.0 <= Percent(t) <= 100.0
  {
    var s := t.score as real;
    var m := t.maxScore as real;
    assert s / m <= 1.0 by {
      assert s <= m;
      assert s / m * m == s;
    }
  }

  lemma {:induction false} PercentSumInRange(ts: seq<TestResult>)
    requires forall k :: 0 <= k < |ts| ==> ScoreInRange(ts[k])
    ensures Finite(ts)
    ensures 0.0 <= PercentSum(ts) <= 100.0 * |ts| as real
  {
    if |ts| > 0 {
      var init := ts[..|ts| - 1];
      assert forall k :: 0 <= k < |init| ==> init[k] == ts[k];
      PercentSumInRange(init);
      PercentInRange(ts[|ts| - 1]);
    }
  }

  /** With every score between 0 and its maximum, the average is a finite
      percentage between 0 and 100. */
  lemma AverageInRange(ts: seq<TestResult>)
    requires forall k :: 0 <= k < |ts| ==> ScoreInRange(ts[k])
    ensures AverageScore(ts).Some?
    ensures 0 <= AverageScore(ts).value <= 100
  {
    PercentSumInRange(ts);
    if |ts| > 0 {
      var n := |ts| as real;
      var mean := PercentSum(ts) / n;
      assert 0.0 <= mean <= 100.0 by {
        assert mean * n == PercentSum(ts);
      }
    }
  }

  lemma {:induction false} PercentSumUniform(ts: seq<TestResult>, c: real)
    requires Finite(ts)
    requires forall k :: 0 <= k < |ts| ==> Percent(ts[k]) == c
    ensures PercentSum(ts) == |ts| as real * c
  {
    if |ts| > 0 {
      var init := ts[..|ts| - 1];
      assert forall k :: 0 <= k < |init| ==> init[k] == ts[k];
      PercentSumUniform(init, c);
    }
  }

  /** The average of results that all score the same whole percentage is that percentage. */
  lemma AverageOfUniform(ts: seq<TestResult>, c: int)
    requires |ts| > 0 && Finite(ts)
    requires forall k :: 0 <= k < |ts| ==> Percent(ts[k]) == c as real
    ensures AverageScore(ts) == Some(c)
  {
    PercentSumUniform(ts, c as real);
    var n := |ts| as real;
    assert PercentSum(ts) / n == c as real;
    var r := Round(c as real);
    assert r as real - 0.5 <= c as real < r as real + 0.5;
    assert r == c;
  }

  /** Two results of 85/100 and 92/100 average 88.5, which rounds up to 89. */
  lemma AverageRoundsHalfUp(t1: TestResult, t2: TestResult)
    requires t1.score == 85 && t1.maxScore == 100
    requires t2.score == 92 && t2.maxScore == 100
    ensures AverageScore([t1, t2]) == Some(89)
  {
    assert [t1, t2][..1] == [t1];
    assert [t1][..0] == [];
    assert Percent(t1) == 85.0;
    assert Percent(t2) == 92.0;
    assert PercentSum([t1]) == 85.0;
    assert PercentSum([t1, t2]) == PercentSum([t1]) + 92.0;
    assert PercentSum([t1, t2]) / 2 as real == 88.5;
  }

  // ---------------------------------------------------------------------------
  // Header and counters

  /** `student.bio || fallback`: an absent or empty bio is falsy. */
  function BioOr(student: Student, fallback: string): (r: string)
    ensures student.bio.Some? && student.bio.value != "" ==> r == student.bio.value
    ensures student.bio.None? || student.bio.value == "" ==> r == fallback
  {
    match student.bio
    case Some(b) => if b != "" then b else fallback
    case None => fallback
  }

  /** The header line under the name: the bio, else the e-mail. */
  function Subtitle(student: Student): (r: string)
    ensures student.bio.Some? && student.bio.value != "" ==> r == student.bio.value
    ensures student.bio.None? || student.bio.value == "" ==> r == student.email
  {
    BioOr(student, student.email)
  }

  const NotFilledIn: string := "Не заполнено"

  /** The profile's "about" field: the bio, else "not filled in". */
  function AboutText(student: Student): (r: string)
    ensures student.bio.Some? && student.bio.value != "" ==> r == student.bio.value
    ensures student.bio.None? || student.bio.value == "" ==> r == NotFilledIn
  {
    BioOr(student, NotFilledIn)
  }

  datatype Stats = Stats(testsTaken: nat, availableVacancies: nat, averageScore: Option<int>)

  /** The three header counters. */
  function StudentStats(student: Student, vacancies: seq<Vacancy>): (r: Stats)
    ensures r.testsTaken == |student.tests|
    ensures r.availableVacancies <= |vacancies|
    ensures r.availableVacancies == |vacancies| <==> forall j :: 0 <= j < |vacancies| ==> vacancies[j].requiredLevel <= student.level
    ensures r.availableVacancies == 0 <==> forall j :: 0 <= j < |vacancies| ==> vacancies[j].requiredLevel > student.level
    ensures |student.tests| == 0 ==> r.averageScore == Some(0)
    ensures r.averageScore == AverageScore(student.tests)
  {
    Stats(|student.tests|, |AvailableVacancies(vacancies, student)|, AverageScore(student.tests))
  }

  /** The counters agree with the lists the tabs show: the tests-taken count is
      the number of result cards, the vacancy count the number of vacancy cards. */
  lemma StatsMatchPanels(student: Student, vacancies: seq<Vacancy>, catalogue: seq<Test>)
    ensures StudentStats(student, vacancies).testsTaken
         == |ShownPanel(ResultsTab, student, vacancies, catalogue).results|
    ensures StudentStats(student, vacancies).availableVacancies
         == |ShownPanel(VacanciesTab, student, vacancies, catalogue).vacancies|
    ensures |student.tests| == 0 ==> StudentStats(student, vacancies).averageScore == Some(0)
  {
  }

  // ---------------------------------------------------------------------------
  // Dashboard-local state

  datatype Tab = TestsTab | VacanciesTab | ResultsTab | ProfileTab

  /** Fresh on every mount. */
  const InitialTab: Tab := TestsTab

  datatype Panel =
    | TestList(cards: seq<TestCard>)
    | VacancyList(vacancies: seq<Vacancy>)
    | ResultList(results: seq<TestResult>)
    | ProfileView(student: Student, about: string)

  function ShownPanel(tab: Tab, student: Student, vacancies: seq<Vacancy>, catalogue: seq<Test>): (r: Panel)
    ensures r.TestList? <==> tab == TestsTab
    ensures r.VacancyList? <==> tab == VacanciesTab
    ensures r.ResultList? <==> tab == ResultsTab
    ensures r.ProfileView? <==> tab == ProfileTab
    ensures tab == TestsTab ==> r.cards == TestCards(student, catalogue)
    ensures tab == VacanciesTab ==> r.vacancies == AvailableVacancies(vacancies, student)
    ensures tab == ResultsTab ==> r.results == student.tests
    ensures tab == ProfileTab ==> r.student == student && r.about == AboutText(student)
  {
    match tab
    case TestsTab => TestList(TestCards(student, catalogue))
    case VacanciesTab => VacancyList(AvailableVacancies(vacancies, student))
    case ResultsTab => ResultList(student.tests)
    case ProfileTab => ProfileView(student, AboutText(student))
  }

  // ---------------------------------------------------------------------------
  // The seed: Anna (s1, level 3, one result of 85/100)

  lemma AvailableOfThree(v0: Vacancy, v1: Vacancy, v2: Vacancy, student: Student)
    requires v0.requiredLevel <= student.level < v1.requiredLevel && v2.requiredLevel <= student.level
    ensures AvailableVacancies([v0, v1, v2], student) == [v0, v2]
  {
    assert [v0, v1, v2] == [v0] + ([v1] + [v2]);
    FilterConcat([v1], [v2], OpenTo(student.level));
    FilterConcat([v0], [v1] + [v2], OpenTo(student.level));
  }

  /** Anna (level 3) sees v1 (level 3, the boundary case) and v3 (level 2), not v2 (level 4). */
  lemma SeedAvailable()
    ensures AvailableVacancies(Vacancies, Students[0]) == [Vacancies[0], Vacancies[2]]
  {
    AvailableOfThree(Vacancies[0], Vacancies[1], Vacancies[2], Students[0]);
  }

  lemma StatsOfOneResult(student: Student, vacancies: seq<Vacancy>, available: seq<Vacancy>, c: int)
    requires |student.tests| == 1 && student.tests[0].maxScore != 0
    requires Percent(student.tests[0]) == c as real
    requires AvailableVacancies(vacancies, student) == available
    ensures StudentStats(student, vacancies) == Stats(1, |available|, Some(c))
  {
    AverageOfUniform(student.tests, c);
  }

  lemma SeedStats()
    ensures StudentStats(Students[0], Vacancies) == Stats(1, 2, Some(85))
  {
    SeedAvailable();
    var t := Students[0].tests[0];
    assert t.score == 85 && t.maxScore == 100;
    assert Percent(t) == 85.0;
    StatsOfOneResult(Students[0], Vacancies, [Vacancies[0], Vacancies[2]], 85);
  }

  /** Anna has completed test1 only: its card shows "completed", the other two "start". */
  lemma SeedTestCards()
    ensures TestCardFor(Students[0], Tests[0]).action == CompletedBadge
    ensures TestCardFor(Students[0], Tests[1]).action == StartButton
    ensures TestCardFor(Students[0], Tests[2]).action == StartButton
  {
    assert Students[0].tests[0].testId == Tests[0].id;
  }
}
